=== FILE: README.md ===
# Library lending system — a Dafny model

This project models the core of a small library-management system. Members borrow
and return media items (books, CDs, DVDs, magazines) and reserve items that are out
of stock; a reservation waits in a first-come-first-served queue per item. An
authentication service logs users in and registers new ones.

The system's repositories (media items, users, loans, reservations) are modelled as
one immutable in-memory state, `Domain.Library`. It holds a map per table and a single
counter that hands out fresh, ever-increasing ids, so "oldest first" means "smallest
id first". Every repository operation is a pure function. Every write that can fail returns a
`Result` of the new state; a failing write returns an error and no new state. The
`Delete` operations cannot fail: they return the new state and whether a row existed. This is how the
model expresses "a failed write changes nothing".
Errors are split into three kinds, as the system splits its exceptions:
business errors, data-access errors and authentication errors.

The two services (`LibraryService`, `AuthService`) return a `Reply`: the new state,
the result, and the sequence of repository calls made on the way. The call trace
is what the system's unit tests check with mock verification ("the loan was never
saved"). The model states those facts as `SaveLoan !in r.calls` and similar clauses.

Modules, in dependency order:

- `Outcomes` — `Option`, `Result` and the error taxonomy.
- `Domain` — the entities (user, media item, loan, reservation) and the state. It also
  defines `Valid`, the database constraints (title present; ISBN, username and email
  unique; foreign keys of loans and reservations resolve), and the service call trace.
- `Text` — Java's `String.trim` (drops characters `<= ' '` at both ends), blankness,
  and substring search.
- `Query` — an ordered scan over a table. Every list query is built on it.
- `MediaStore`, `UserStore`, `LoanStore`, `ReservationStore` — the repositories.
- `LibraryService`, `AuthService` — the services.

A missing item passed to `addMediaItem` or `updateMediaItem` raises a business
exception in the service's unit tests, so the model returns a business error for it.

## Model

| member | source | states |
|---|---|---|
| MediaStore.Update | src/test/java/com/example/library/repository/JdbcMediaItemRepositoryExceptionTest.java:44-61 | updating an id that is not stored is a data-access error (no such row); on success the item is found under its id and every other item, user, loan and reservation is untouched |
| MediaStore.Save | src/test/java/com/example/library/repository/JdbcMediaItemRepositoryExceptionTest.java:63-110 | a missing title, or an ISBN already on file, is a data-access error; save succeeds exactly when neither holds, under an id newer than all ids in use, and keeps the constraints |
| MediaStore.DuplicateIsbnRejected | src/test/java/com/example/library/repository/JdbcMediaItemRepositoryExceptionTest.java:63-92 | after one item with an ISBN is saved, saving a second titled item with that ISBN fails with a data-access error |
| MediaStore.SaveThenFind | src/test/java/com/example/library/repository/JdbcMediaItemRepositoryExceptionTest.java:119-138 | a saved item is found again under the returned id, and under its ISBN |
| MediaStore.UpdateAvailableCopies | src/test/java/com/example/library/repository/JdbcMediaItemRepositoryExceptionTest.java:112-138 | succeeds exactly when the id is stored, with any count, negative counts included; an unknown id is a data-access error; on success only that item's count changes |
| MediaStore.Delete | src/test/java/com/example/library/repository/JdbcMediaItemRepositoryExceptionTest.java:140-163 | answers true exactly when the item existed; afterwards it is gone, other items are unchanged, and the reservations on it (and in this model its loans) are deleted with it |
| MediaStore.DeleteThenDeleteAgain | src/test/java/com/example/library/repository/JdbcMediaItemRepositoryExceptionTest.java:140-163 | a second delete of the same id answers false and the id is not found |
| MediaStore.DeletePreservesValid | src/test/java/com/example/library/repository/JdbcReservationRepositoryIntegrationTest.java:222-238 | deleting an item keeps every constraint: no loan or reservation is left pointing at it |
| MediaStore.FindById | src/test/java/com/example/library/repository/JdbcMediaItemRepositoryExceptionTest.java:165-169 | yields the item exactly when the id is stored, and nothing for any id below 1 |
| MediaStore.FindByIsbn | src/test/java/com/example/library/repository/JdbcMediaItemRepositoryExceptionTest.java:171-181 | a missing or unknown ISBN yields nothing; otherwise the id of an item carrying that ISBN, the only one when the constraints hold |
| MediaStore.ExistsByIsbn | src/test/java/com/example/library/repository/JdbcMediaItemRepositoryExceptionTest.java:214-218 | true exactly when the ISBN is present and some stored item carries it; false for a missing ISBN |
| MediaStore.FindByType | src/test/java/com/example/library/repository/JdbcMediaItemRepositoryExceptionTest.java:183-187 | a missing type yields no items; otherwise exactly the items of that type, oldest first |
| MediaStore.FindByTitleContaining | src/test/java/com/example/library/repository/JdbcMediaItemRepositoryExceptionTest.java:189-193 | a missing fragment yields no items; otherwise exactly the items whose title contains it, oldest first |
| MediaStore.FindByAuthorContaining | src/test/java/com/example/library/repository/JdbcMediaItemRepositoryExceptionTest.java:195-199 | a missing fragment yields no items; otherwise exactly the items whose author contains it, oldest first |
| MediaStore.Search | src/test/java/com/example/library/repository/JdbcMediaItemRepositoryExceptionTest.java:201-205 | a missing keyword yields no items; otherwise exactly the items whose title or author contains it, oldest first |
| UserStore.FindByUsername | src/test/java/com/example/library/service/AuthServiceImplEdgeCaseTest.java:65-79 | yields nothing exactly when no user has that username; otherwise a user with it, the only one when the constraints hold |
| UserStore.ExistsByUsername | src/test/java/com/example/library/service/AuthServiceImplEdgeCaseTest.java:105-120 | true exactly when some stored user has the username |
| UserStore.ExistsByEmail | src/test/java/com/example/library/service/AuthServiceImplEdgeCaseTest.java:122-139 | true exactly when some stored user has the email |
| UserStore.SaveThenFind | src/test/java/com/example/library/service/AuthServiceImplEdgeCaseTest.java:65-79 | a saved user is found again under the returned id, and by its username |
| UserStore.Save | src/test/java/com/example/library/repository/JdbcReservationRepositoryIntegrationTest.java:266-273 | succeeds exactly when both the username and the email are free (otherwise a data-access error); the user gets an id newer than all ids in use and nothing else changes |
| UserStore.Delete | src/test/java/com/example/library/repository/JdbcReservationRepositoryIntegrationTest.java:204-220 | answers true exactly when the user existed; the user is gone, other users are unchanged, and exactly the user's loans and reservations are removed |
| UserStore.DeletePreservesValid | src/test/java/com/example/library/repository/JdbcReservationRepositoryIntegrationTest.java:204-220 | deleting a user keeps every constraint: no loan or reservation is left pointing at it |
| LoanStore.Save | src/test/java/com/example/library/service/LibraryServiceImplAdditionalEdgeCaseTest.java:81-125 | succeeds exactly when the loan's user and item are stored (otherwise a data-access error), under a fresh id; nothing else changes |
| LoanStore.Update | src/test/java/com/example/library/service/LibraryServiceImplAdditionalEdgeCaseTest.java:127-147 | an unknown loan id is a data-access error; on success that loan is replaced and nothing else changes |
| ReservationStore.Save | src/test/java/com/example/library/repository/JdbcReservationRepositoryIntegrationTest.java:40-64 | succeeds exactly when the user and item are stored, under an id newer than all ids in use; the reservation is then found under that id and every other row is untouched |
| ReservationStore.Update | src/test/java/com/example/library/repository/JdbcReservationRepositoryIntegrationTest.java:117-135 | an unknown id is a data-access error; on success the new status (e.g. fulfilled) is what is found under the id, and nothing else changes |
| ReservationStore.Delete | src/test/java/com/example/library/repository/JdbcReservationRepositoryIntegrationTest.java:186-202 | answers true exactly when the reservation existed; afterwards it is not found and every other row is untouched |
| ReservationStore.FindByUserId | src/test/java/com/example/library/repository/JdbcReservationRepositoryIntegrationTest.java:66-87 | exactly the user's reservations, whatever their status, oldest first |
| ReservationStore.FindActiveByUserId | src/test/java/com/example/library/repository/JdbcReservationRepositoryIntegrationTest.java:240-262 | exactly the user's reservations that are still active, oldest first |
| ReservationStore.FindExpired | src/test/java/com/example/library/repository/JdbcReservationRepositoryIntegrationTest.java:137-161 | exactly the active reservations whose expiry lies before the given time; their status is left as it is |
| ReservationStore.CountActiveByItemId | src/test/java/com/example/library/repository/JdbcReservationRepositoryDirectTest.java:149-167 | the number of active reservations for the item, so cancelled and fulfilled ones do not count |
| ReservationStore.FindActiveByItemId | src/test/java/com/example/library/repository/JdbcReservationRepositoryDirectTest.java:101-127 | the item's active reservations, each once, in queue order (earlier reservation date first, the older id on a tie) |
| ReservationStore.QueueLengthIsCount | src/test/java/com/example/library/repository/JdbcReservationRepositoryIntegrationTest.java:163-184 | the item's queue is as long as its active count |
| ReservationStore.Arrange | src/test/java/com/example/library/repository/JdbcReservationRepositoryDirectTest.java:101-127 | puts a strictly ascending list of stored reservation ids into queue order, keeping exactly the same ids |
| ReservationStore.QueueUnique | src/test/java/com/example/library/repository/JdbcReservationRepositoryDirectTest.java:101-127 | two lists in queue order holding the same reservations are equal, so the queue is fully determined by the rows |
| ReservationStore.ReserveJoinsTail | src/test/java/com/example/library/repository/JdbcReservationRepositoryDirectTest.java:101-127 | a new active reservation dated no earlier than those waiting joins the item's queue at the tail, behind the unchanged existing queue |
| ReservationStore.ThreeReservationsServedInOrder | src/test/java/com/example/library/repository/JdbcReservationRepositoryIntegrationTest.java:89-115 | three reservations saved one after another for an item with an empty queue form the queue in the order they were saved |
| ReservationStore.TwoReservationsServedInOrder | src/test/java/com/example/library/repository/JdbcReservationRepositoryIntegrationTest.java:89-115 | two reservations saved one after another for an item with an empty queue form the queue in the order they were saved |
| ReservationStore.JoinsQueue | src/test/java/com/example/library/repository/JdbcReservationRepositoryIntegrationTest.java:89-115 | a new active reservation dated no earlier than every queued one is appended to the queue |
| ReservationStore.CancelLeavesQueue | src/test/java/com/example/library/repository/JdbcReservationRepositoryIntegrationTest.java:163-184 | cancelling an active reservation removes it from the item's queue and the user's active list, keeps it in the user's full list, and lowers the item's active count by one |
| ReservationStore.DeletingUserDropsReservations | src/test/java/com/example/library/repository/JdbcReservationRepositoryIntegrationTest.java:204-220 | after a user is deleted, none of the user's reservations is found, the user's list is empty, and every queue is the old queue without the user's entries, in the same order |
| ReservationStore.DeletingItemDropsReservations | src/test/java/com/example/library/repository/JdbcReservationRepositoryIntegrationTest.java:222-238 | after an item is deleted, its reservations are not found and its queue is empty, while the queues of other items are unchanged |
| LibraryService.AddMediaItem | src/test/java/com/example/library/service/LibraryServiceImplAdditionalEdgeCaseTest.java:50-57 | a missing item is a business error and no save call is made; otherwise it succeeds exactly when the store accepts the item, which is then found under a fresh id, with that one item added and every other table unchanged; a failure changes nothing |
| LibraryService.AddThenGet | src/test/java/com/example/library/service/LibraryServiceImplAdditionalEdgeCaseTest.java:169-177 | an item added through the service is what a get of the returned id yields |
| LibraryService.UpdateMediaItem | src/test/java/com/example/library/service/LibraryServiceImplAdditionalEdgeCaseTest.java:59-66 | a missing item is a business error, no update call is made and nothing changes; an unknown id is a data-access error; a present update succeeds exactly when the id is stored, the title is present and no other item holds its ISBN; on success the updated item is returned, and only that item changes |
| LibraryService.BorrowItem | src/test/java/com/example/library/service/LibraryServiceImplAdditionalEdgeCaseTest.java:68-125 | an unknown user fails with a business error after the single user lookup, and no loan is saved; a known user with an unknown item fails with a business error after the user and item lookups; no free copy is a business error; any failure changes nothing; under the constraints it succeeds exactly when the user and item exist and a copy is free, recording an on-loan loan from today with the due date today plus the type's period (14 days for any type other than BOOK and CD) and taking one copy; that loan is the only one added and no other table changes |
| LibraryService.ReturnItem | src/test/java/com/example/library/service/LibraryServiceImplAdditionalEdgeCaseTest.java:127-147 | an unknown loan is a business error; a loan whose item has been deleted is a business error after the loan and item lookups, and the loan is left as it was; otherwise the loan is closed as returned today and one copy goes back |
| LibraryService.BorrowThenReturn | src/test/java/com/example/library/service/LibraryServiceImplAdditionalEdgeCaseTest.java:127-147 | returning a loan just borrowed succeeds, closes it on the day of return and restores the item table exactly |
| LibraryService.SearchMediaItems | src/test/java/com/example/library/service/LibraryServiceImplAdditionalEdgeCaseTest.java:149-167 | never fails and changes nothing; a missing or empty keyword yields an empty list; otherwise exactly the items whose title or author contains the keyword, each once, oldest first |
| LibraryService.GetMediaItem | src/test/java/com/example/library/service/LibraryServiceImplAdditionalEdgeCaseTest.java:169-177 | never fails; an unknown id yields "no item" and a stored id its item |
| LibraryService.DeleteMediaItem | src/test/java/com/example/library/service/LibraryServiceImplAdditionalEdgeCaseTest.java:179-197 | answers true exactly when the item existed and false (not an error) otherwise; afterwards it is gone, other items and all users are unchanged, exactly the loans and reservations on it are removed (the rest untouched), and the constraints are kept |
| AuthService.Login | src/test/java/com/example/library/service/AuthServiceImplEdgeCaseTest.java:29-94 | an absent username or password, or one that is blank once trimmed, is an authentication error with no lookup at all; otherwise exactly one lookup by the trimmed username, and, under the constraints, login succeeds exactly when some user has the trimmed username and the trimmed password; a successful login names such a user; nothing changes |
| AuthService.Authenticate | src/test/java/com/example/library/service/AuthServiceImplEdgeCaseTest.java:65-94 | with non-empty credentials, under the constraints, succeeds exactly when some user has that username and password |
| AuthService.LoginIgnoresPadding | src/test/java/com/example/library/service/AuthServiceImplEdgeCaseTest.java:65-94 | surrounding whitespace on either credential does not change the outcome of a login |
| Text.Trim | src/test/java/com/example/library/service/AuthServiceImplEdgeCaseTest.java:38-45 | the result is a contiguous slice of the input with only padding (characters up to U+0020) before and after it; it has no padding at either end, and is empty exactly when the input was all padding |
| Text.TrimIgnoresPadding | src/test/java/com/example/library/service/AuthServiceImplEdgeCaseTest.java:65-79 | trimming a string with whitespace added on both sides gives what trimming the string itself gives |
| Text.TrimIdempotent | src/test/java/com/example/library/service/AuthServiceImplEdgeCaseTest.java:81-94 | trimming twice is trimming once |
| AuthService.Register | src/test/java/com/example/library/service/AuthServiceImplEdgeCaseTest.java:96-139 | a missing user is an authentication error; a taken username fails after the username check alone, and a taken email after both checks; registration succeeds exactly when both are free; no failure saves a user or changes anything |

## Left out

- SQL and JDBC are not modelled. The repositories are maps; the database's cascading deletes and constraints are stated directly.
- The clock is not modelled. Times are plain integers passed in by the caller (`today`, `now`, reservation and expiry dates).
- Fines and late fees are not modelled. `lateFeesPerDay` is carried on the item and never read, because the fine calculation is not part of this model.
- LibraryService.LoanDays: the BOOK and CD loan periods are parameters (`LoanPolicy`), because the service's unit tests fix neither value; only the 14-day default for every other type is fixed.
- The reservation service (reserve, promote the next reservation on return, cancel, expire) is not modelled. Only the reservation repository it would build on is modelled; the EXPIRED status is left out with it.
- Password hashing is not modelled. Passwords are compared as stored strings, and the console messages are left out.
- MediaStore.Search, MediaStore.FindByTitleContaining, MediaStore.FindByAuthorContaining: SQL `LIKE` matching is modelled as case-sensitive substring containment, and the special-character search is not modelled beyond "the keyword is an ordinary string".
- MediaStore.FindByType: the type is compared exactly, without case folding.
- MediaStore.Search, MediaStore.FindByType, MediaStore.FindByTitleContaining, MediaStore.FindByAuthorContaining: a present but empty keyword yields no items. This is a modelling choice: the repository's tests fix only the absent keyword, and a SQL `LIKE '%%'` would match every item.
- LibraryService.AddMediaItem: a present item with no title is passed on to the media store, which rejects it as a data-access error. This is a modelling choice: the repository's tests show that rejection, and the service's unit tests do not show whether `addMediaItem` checks the title itself.
- MediaStore.Delete: deleting an item also deletes its loans, so a loan whose item is gone (the case LibraryService.ReturnItem answers with a business error) arises only in states that break `Valid`. ReturnItem's contract covers that case for every state.
- MediaStore.Update enforces the same constraints as save (title present, ISBN unique); the source says only that an unknown id fails.
- LoanStore.Save and ReservationStore.Save enforce the foreign keys, as the database does; the save itself is otherwise unconditional.
- List queries, `MediaStore.FindByIsbn` and `UserStore.FindByUsername` return ids (list queries in creation order) rather than entity objects; `FindById` turns an id back into its row.
- The call trace records which repository calls a service makes, and in what order. It does not record their arguments beyond the ids and keywords.
- AuthService.Login yields the id of the logged-in user instead of the user object.
- The user's creation time and the meaning of roles (member, admin) are not modelled; the role is carried on the user.

=== FILE: auth_service.dfy ===
/** The authentication service: login with trimmed credentials, and registration
    that refuses taken usernames and emails. Neither changes anything on failure. */
module AuthService {
  import opened Outcomes
  import opened Domain
  import opened Text
  import UserStore

  /** A credential that is absent, or blank once trimmed. */
  predicate Missing(s: Option<string>) {
    s.None? || Blank(s.value)
  }

  /** The check `login` makes once both credentials are present and trimmed. */
  function Authenticate(lib: Library, name: string, secret: string): (r: Reply<Id>)
    ensures r.lib == lib
    ensures r.result.Err? ==> r.result.error.Kind() == Auth
    ensures name == [] || secret == [] ==> r.result == Err(MissingCredentials) && r.calls == []
    ensures name != [] && secret != [] ==> r.calls == [FindUserByUsername(name)]
    ensures r.result.Ok? ==>
      && r.result.value in lib.users
      && lib.users[r.result.value].username == name
      && lib.users[r.result.value].password == secret
    ensures Valid(lib) && name != [] && secret != [] ==>
      (r.result.Ok? <==>
        exists k :: k in lib.users && lib.users[k].username == name && lib.users[k].password == secret)
  {
    if name == [] || secret == [] then Reply(lib, Err(MissingCredentials), [])
    else
      var calls := [FindUserByUsername(name)];
      match UserStore.FindByUsername(lib, name)
      case None => Reply(lib, Err(UnknownUsername), calls)
      case Some(id) =>
        if lib.users[id].password == secret then Reply(lib, Ok(id), calls)
        else Reply(lib, Err(WrongPassword), calls)
  }

  /** `login`: both credentials are trimmed; an absent or blank one is refused before
      any lookup. The user is then looked up by trimmed username and the trimmed
      password must match. */
  function Login(lib: Library, username: Option<string>, password: Option<string>): (r: Reply<Id>)
    ensures r.lib == lib
    ensures r.result.Err? ==> r.result.error.Kind() == Auth
    ensures Missing(username) || Missing(password) ==> r.result == Err(MissingCredentials) && r.calls == []
    ensures !Missing(username) && !Missing(password) ==>
      r.calls == [FindUserByUsername(Trim(username.value))]
    ensures r.result.Ok? ==>
      && !Missing(username) && !Missing(password)
      && r.result.value in lib.users
      && lib.users[r.result.value].username == Trim(username.value)
      && lib.users[r.result.value].password == Trim(password.value)
    ensures Valid(lib) && !Missing(username) && !Missing(password) ==>
      (r.result.Ok? <==>
        exists k :: k in lib.users && lib.users[k].username == Trim(username.value)
                                   && lib.users[k].password == Trim(password.value))
  {
    if username.None? || password.None? then Reply(lib, Err(MissingCredentials), [])
    else Authenticate(lib, Trim(username.value), Trim(password.value))
  }

  /** Padding around the credentials does not matter: logging in as "  name  " with
      "  secret  " is logging in as "name" with "secret". */
  lemma LoginIgnoresPadding(lib: Library, pre: string, name: string, post: string,
                            pre': string, secret: string, post': string)
    requires AllTrimmable(pre) && AllTrimmable(post) && AllTrimmable(pre') && AllTrimmable(post')
    ensures Login(lib, Some(pre + name + post), Some(pre' + secret + post'))
         == Login(lib, Some(name), Some(secret))
  {
    TrimIgnoresPadding(pre, name, post);
    TrimIgnoresPadding(pre', secret, post');
    var paddedName, paddedSecret := Some(pre + name + post), Some(pre' + secret + post');
    assert Login(lib, paddedName, paddedSecret) == Authenticate(lib, Trim(name), Trim(secret));
    assert Login(lib, Some(name), Some(secret)) == Authenticate(lib, Trim(name), Trim(secret));
  }

  /** `register`: a missing user is refused; otherwise the username and then the email
      must be free, and only then is the user saved. */
  function Register(lib: Library, user: Option<User>): (r: Reply<Id>)
    ensures user.None? ==> r.result == Err(NullUser) && r.lib == lib && r.calls == []
    ensures r.result.Err? ==> r.result.error.Kind() == Auth && r.lib == lib && SaveUser !in r.calls
    ensures user.Some? && UserStore.ExistsByUsername(lib, user.value.username) ==>
      r.result == Err(UsernameTaken) && r.calls == [ExistsByUsername(user.value.username)]
    ensures (user.Some? && !UserStore.ExistsByUsername(lib, user.value.username)
             && UserStore.ExistsByEmail(lib, user.value.email)) ==>
      && r.result == Err(EmailTaken)
      && r.calls == [ExistsByUsername(user.value.username), ExistsByEmail(user.value.email)]
    ensures r.result.Ok? <==>
      && user.Some?
      && (forall k :: k in lib.users ==> lib.users[k].username != user.value.username)
      && (forall k :: k in lib.users ==> lib.users[k].email != user.value.email)
    ensures r.result.Ok? ==>
      && Newer(lib, r.result.value)
      && r.lib.users == lib.users[r.result.value := user.value]
      && r.lib.items == lib.items && r.lib.loans == lib.loans && r.lib.reservations == lib.reservations
    ensures Valid(lib) ==> Valid(r.lib)
  {
    if user.None? then Reply(lib, Err(NullUser), [])
    else
      var u := user.value;
      var calls := [ExistsByUsername(u.username)];
      if UserStore.ExistsByUsername(lib, u.username) then Reply(lib, Err(UsernameTaken), calls)
      else
        var calls := calls + [ExistsByEmail(u.email)];
        if UserStore.ExistsByEmail(lib, u.email) then Reply(lib, Err(EmailTaken), calls)
        else
          var (lib', id) := UserStore.Save(lib, u).value;
          Reply(lib', Ok(id), calls + [SaveUser])
  }
}

=== FILE: domain.dfy ===
/** Entities of the lending library and the in-memory state of its four stores. */
module Domain {
  import opened Outcomes

  /** Surrogate keys assigned by the stores. */
  type Id = int

  /** A point in time. Loan dates count days, reservation dates count finer instants;
      both come from the caller, the model never reads a clock. */
  type Time = int

  datatype Role = Member | Admin

  datatype User = User(username: string, password: string, email: string, role: Role)

  /** A catalogue entry. The title may be missing on input (the store rejects it);
      `availableCopies` may be negative, the store tolerates over-committed items. */
  datatype MediaItem = MediaItem(
    title: Option<string>,
    author: string,
    mediaType: string,
    isbn: Option<string>,
    totalCopies: int,
    availableCopies: int,
    lateFeesPerDay: int)

  /** A loan is `ACTIVE` (on loan) until it is `RETURNED`. */
  datatype LoanStatus = OnLoan | Returned

  datatype Loan = Loan(
    userId: Id,
    itemId: Id,
    loanDate: Time,
    dueDate: Time,
    returnDate: Option<Time>,
    status: LoanStatus)

  datatype ReservationStatus = Active | Fulfilled | Cancelled

  datatype Reservation = Reservation(
    userId: Id,
    itemId: Id,
    reservationDate: Time,
    expiryDate: Time,
    status: ReservationStatus)

  /** The four stores and the one counter every store draws fresh ids from. */
  datatype Store = Store(
    users: map<Id, User>,
    items: map<Id, MediaItem>,
    loans: map<Id, Loan>,
    reservations: map<Id, Reservation>,
    nextId: Id)
  {
    /** Every row sits at an id the counter has already handed out. */
    predicate WellKeyed() {
      && nextId >= 1
      && (forall k :: k in users ==> 1 <= k < nextId)
      && (forall k :: k in items ==> 1 <= k < nextId)
      && (forall k :: k in loans ==> 1 <= k < nextId)
      && (forall k :: k in reservations ==> 1 <= k < nextId)
    }
  }

  /** A library state: a store whose keys all lie below its counter. */
  type Library = s: Store | s.WellKeyed() witness Store(map[], map[], map[], map[], 1)

  /** `id` is newer than every id any store already uses. */
  predicate Newer(lib: Library, id: Id) {
    && (forall k :: k in lib.users ==> k < id)
    && (forall k :: k in lib.items ==> k < id)
    && (forall k :: k in lib.loans ==> k < id)
    && (forall k :: k in lib.reservations ==> k < id)
  }

  /** The database constraints: titles are present, ISBNs, usernames and emails are
      unique, and every loan and reservation refers to an existing user and item. */
  predicate Valid(lib: Library) {
    && (forall k :: k in lib.items ==> lib.items[k].title.Some?)
    && (forall a, b :: a in lib.items && b in lib.items && a != b && lib.items[a].isbn.Some?
          ==> lib.items[a].isbn != lib.items[b].isbn)
    && (forall a, b :: a in lib.users && b in lib.users && a != b
          ==> lib.users[a].username != lib.users[b].username && lib.users[a].email != lib.users[b].email)
    && (forall k :: k in lib.loans ==> lib.loans[k].userId in lib.users && lib.loans[k].itemId in lib.items)
    && (forall k :: k in lib.reservations
          ==> lib.reservations[k].userId in lib.users && lib.reservations[k].itemId in lib.items)
  }

  /** A repository call made by a service, in the order made. */
  datatype Call =
    | FindUserById(userId: Id)
    | FindUserByUsername(username: string)
    | ExistsByUsername(username: string)
    | ExistsByEmail(email: string)
    | SaveUser
    | FindItemById(itemId: Id)
    | SaveItem
    | UpdateItem(itemId: Id)
    | DeleteItem(itemId: Id)
    | SearchItems(keyword: Option<string>)
    | FindLoanById(loanId: Id)
    | SaveLoan
    | UpdateLoan(loanId: Id)

  /** What a service operation leaves behind: the new state, its outcome, and the
      repository calls it made. */
  datatype Reply<+T> = Reply(lib: Library, result: Result<T>, calls: seq<Call>)
}

=== FILE: library_service.dfy ===
/** The library service: media CRUD guarded against missing input, and the borrow
    and return rules. Every operation either completes all of its writes or none. */
module LibraryService {
  import opened Outcomes
  import opened Domain
  import MediaStore
  import LoanStore
  import Query

  /** Loan periods, in days, of the two media types that have a policy of their own. */
  datatype LoanPolicy = LoanPolicy(bookDays: int, cdDays: int)

  /** The loan period of every other media type. */
  const DefaultLoanDays: int := 14

  predicate KnownType(mediaType: string) {
    mediaType == "BOOK" || mediaType == "CD"
  }

  function LoanDays(policy: LoanPolicy, mediaType: string): int {
    if mediaType == "BOOK" then policy.bookDays
    else if mediaType == "CD" then policy.cdDays
    else DefaultLoanDays
  }

  /** `addMediaItem`: a missing item is a business error and nothing is saved;
      otherwise the store's constraints decide. */
  function AddMediaItem(lib: Library, item: Option<MediaItem>): (r: Reply<Id>)
    ensures item.None? ==> r.result == Err(NullMediaItem) && r.lib == lib && SaveItem !in r.calls
    ensures r.result.Err? ==> r.lib == lib
    ensures r.result.Ok? <==>
      item.Some? && item.value.title.Some? && !MediaStore.ExistsByIsbn(lib, item.value.isbn)
    ensures r.result.Ok? ==>
      && MediaStore.FindById(r.lib, r.result.value) == item
      && Newer(lib, r.result.value)
      && (forall k :: k in lib.items ==> MediaStore.FindById(r.lib, k) == MediaStore.FindById(lib, k))
    ensures r.result.Ok? ==>
      && r.lib.items == lib.items[r.result.value := item.value]
      && r.lib.users == lib.users && r.lib.loans == lib.loans && r.lib.reservations == lib.reservations
    ensures Valid(lib) ==> Valid(r.lib)
  {
    if item.None? then Reply(lib, Err(NullMediaItem), [])
    else
      match MediaStore.Save(lib, item.value)
      case Ok((lib', id)) => Reply(lib', Ok(id), [SaveItem])
      case Err(e) => Reply(lib, Err(e), [SaveItem])
  }

  /** `updateMediaItem`: a missing item is a business error and nothing is updated;
      an unknown id is a data-access error. */
  function UpdateMediaItem(lib: Library, update: Option<(Id, MediaItem)>): (r: Reply<MediaItem>)
    ensures update.None? ==>
      && r.result == Err(NullMediaItem) && r.lib == lib
      && forall k :: UpdateItem(k) !in r.calls
    ensures r.result.Err? ==> r.lib == lib
    ensures update.Some? && update.value.0 !in lib.items ==> r.result == Err(NoSuchRow)
    ensures update.Some? ==>
      var (id, item) := update.value;
      (r.result.Ok? <==> id in lib.items && item.title.Some? && !MediaStore.IsbnHeldElsewhere(lib, id, item.isbn))
    ensures r.result.Ok? ==> r.result.value == update.value.1
    ensures r.result.Ok? ==>
      var (id, item) := update.value;
      && MediaStore.FindById(r.lib, id) == Some(item)
      && (forall k :: k != id ==> MediaStore.FindById(r.lib, k) == MediaStore.FindById(lib, k))
      && r.lib.users == lib.users && r.lib.loans == lib.loans && r.lib.reservations == lib.reservations
    ensures Valid(lib) ==> Valid(r.lib)
  {
    if update.None? then Reply(lib, Err(NullMediaItem), [])
    else
      var (id, item) := update.value;
      match MediaStore.Update(lib, id, item)
      case Ok(lib') => Reply(lib', Ok(item), [UpdateItem(id)])
      case Err(e) => Reply(lib, Err(e), [UpdateItem(id)])
  }

  /** `borrowItem`: looks up the user, then the item, requires a free copy, and then
      both takes a copy and records an ACTIVE loan due after the type's loan period. */
  function BorrowItem(lib: Library, policy: LoanPolicy, userId: Id, itemId: Id, today: Time): (r: Reply<Id>)
    ensures userId !in lib.users ==>
      r.result == Err(UserNotFound) && r.lib == lib && r.calls == [FindUserById(userId)]
    ensures userId in lib.users && itemId !in lib.items ==>
      && r.result == Err(ItemNotFound) && r.lib == lib
      && r.calls == [FindUserById(userId), FindItemById(itemId)]
    ensures itemId in lib.items && lib.items[itemId].availableCopies <= 0 ==>
      r.result.Err? && r.result.error.Kind() == Business
    ensures r.result.Err? ==> r.lib == lib && SaveLoan !in r.calls
    ensures Valid(lib) && userId in lib.users && itemId in lib.items && lib.items[itemId].availableCopies > 0
      ==> r.result.Ok?
    ensures r.result.Ok? ==>
      userId in lib.users && itemId in lib.items && lib.items[itemId].availableCopies > 0
    ensures r.result.Ok? ==>
      var loanId := r.result.value;
      var item := lib.items[itemId];
      && Newer(lib, loanId)
      && loanId in r.lib.loans
      && r.lib.loans[loanId].userId == userId && r.lib.loans[loanId].itemId == itemId
      && r.lib.loans[loanId].status == OnLoan && r.lib.loans[loanId].returnDate == None
      && r.lib.loans[loanId].loanDate == today
      && r.lib.loans[loanId].dueDate == today + LoanDays(policy, item.mediaType)
      && r.lib.loans == lib.loans[loanId := Loan(userId, itemId, today, today + LoanDays(policy, item.mediaType), None, OnLoan)]
      && r.lib.items == lib.items[itemId := item.(availableCopies := item.availableCopies - 1)]
      && r.lib.users == lib.users && r.lib.reservations == lib.reservations
    ensures r.result.Ok? && !KnownType(lib.items[itemId].mediaType) ==>
      r.lib.loans[r.result.value].dueDate == today + 14
    ensures Valid(lib) ==> Valid(r.lib)
  {
    var calls := [FindUserById(userId)];
    if userId !in lib.users then Reply(lib, Err(UserNotFound), calls)
    else
      var calls := calls + [FindItemById(itemId)];
      if itemId !in lib.items then Reply(lib, Err(ItemNotFound), calls)
      else
        var item := lib.items[itemId];
        if item.availableCopies <= 0 then Reply(lib, Err(NoCopiesAvailable), calls)
        else
          var loan := Loan(userId, itemId, today, today + LoanDays(policy, item.mediaType), None, OnLoan);
          var calls := calls + [UpdateItem(itemId)];
          match MediaStore.Update(lib, itemId, item.(availableCopies := item.availableCopies - 1))
          case Err(e) => Reply(lib, Err(e), calls)
          case Ok(lib1) =>
            match LoanStore.Save(lib1, loan)
            case Err(e) => Reply(lib, Err(e), calls + [SaveLoan])
            case Ok((lib2, loanId)) => Reply(lib2, Ok(loanId), calls + [SaveLoan])
  }

  /** `returnItem`: looks up the loan, then its item; a vanished item is a business
      error and the loan stays as it was. Otherwise the loan is closed today and the
      copy goes back on the shelf. */
  function ReturnItem(lib: Library, loanId: Id, today: Time): (r: Reply<Loan>)
    ensures loanId !in lib.loans ==>
      r.result == Err(LoanNotFound) && r.lib == lib && r.calls == [FindLoanById(loanId)]
    ensures loanId in lib.loans && lib.loans[loanId].itemId !in lib.items ==>
      && r.result == Err(ItemNotFound) && r.lib == lib
      && r.calls == [FindLoanById(loanId), FindItemById(lib.loans[loanId].itemId)]
    ensures r.result.Err? ==> r.lib == lib
    ensures Valid(lib) && loanId in lib.loans ==> r.result.Ok?
    ensures r.result.Ok? ==> loanId in lib.loans && lib.loans[loanId].itemId in lib.items
    ensures r.result.Ok? ==>
      var loan := lib.loans[loanId];
      var item := lib.items[loan.itemId];
      && r.result.value == loan.(status := Returned, returnDate := Some(today))
      && LoanStore.FindById(r.lib, loanId) == Some(r.result.value)
      && (forall k :: k != loanId ==> LoanStore.FindById(r.lib, k) == LoanStore.FindById(lib, k))
      && r.lib.items == lib.items[loan.itemId := item.(availableCopies := item.availableCopies + 1)]
      && r.lib.users == lib.users && r.lib.reservations == lib.reservations
    ensures Valid(lib) ==> Valid(r.lib)
  {
    var calls := [FindLoanById(loanId)];
    if loanId !in lib.loans then Reply(lib, Err(LoanNotFound), calls)
    else
      var loan := lib.loans[loanId];
      var calls := calls + [FindItemById(loan.itemId)];
      if loan.itemId !in lib.items then Reply(lib, Err(ItemNotFound), calls)
      else
        var item := lib.items[loan.itemId];
        var returned := loan.(status := Returned, returnDate := Some(today));
        var calls := calls + [UpdateLoan(loanId)];
        match LoanStore.Update(lib, loanId, returned)
        case Err(e) => Reply(lib, Err(e), calls)
        case Ok(lib1) =>
          match MediaStore.Update(lib1, loan.itemId, item.(availableCopies := item.availableCopies + 1))
          case Err(e) => Reply(lib, Err(e), calls + [UpdateItem(loan.itemId)])
          case Ok(lib2) => Reply(lib2, Ok(returned), calls + [UpdateItem(loan.itemId)])
  }

  /** `searchMediaItems`: never fails and changes nothing; an absent or empty
      keyword yields no items. */
  function SearchMediaItems(lib: Library, keyword: Option<string>): (r: Reply<seq<Id>>)
    ensures r.result.Ok? && r.lib == lib && r.calls == [SearchItems(keyword)]
    ensures MediaStore.NoKeyword(keyword) ==> r.result.value == []
    ensures !MediaStore.NoKeyword(keyword) ==>
      forall k :: k in r.result.value <==> k in lib.items && MediaStore.Matches(lib.items[k], keyword.value)
    ensures Query.Ascending(r.result.value)
  {
    Reply(lib, Ok(MediaStore.Search(lib, keyword)), [SearchItems(keyword)])
  }

  /** `getMediaItem`: an unknown id yields "no item", not an error. */
  function GetMediaItem(lib: Library, id: Id): (r: Reply<Option<MediaItem>>)
    ensures r.result.Ok? && r.lib == lib && r.calls == [FindItemById(id)]
    ensures r.result.value.Some? <==> id in lib.items
    ensures r.result.value.Some? ==> r.result.value.value == lib.items[id]
  {
    Reply(lib, Ok(MediaStore.FindById(lib, id)), [FindItemById(id)])
  }

  /** `deleteMediaItem`: true when the item existed, false (not an error) otherwise. */
  function DeleteMediaItem(lib: Library, id: Id): (r: Reply<bool>)
    ensures r.result.Ok? && r.calls == [DeleteItem(id)]
    ensures r.result.value <==> id in lib.items
    ensures id !in r.lib.items
    ensures !r.result.value ==> r.lib.items == lib.items
    ensures forall k :: k != id ==> MediaStore.FindById(r.lib, k) == MediaStore.FindById(lib, k)
    ensures r.lib.users == lib.users
    ensures forall k :: k in r.lib.loans <==> k in lib.loans && lib.loans[k].itemId != id
    ensures forall k :: k in r.lib.reservations <==> k in lib.reservations && lib.reservations[k].itemId != id
    ensures forall k :: k in r.lib.loans ==> r.lib.loans[k] == lib.loans[k]
    ensures forall k :: k in r.lib.reservations ==> r.lib.reservations[k] == lib.reservations[k]
    ensures Valid(lib) ==> Valid(r.lib)
  {
    var (lib', existed) := MediaStore.Delete(lib, id);
    Reply(lib', Ok(existed), [DeleteItem(id)])
  }

  /** Borrowing an item and returning the loan puts the copy back: the item's count
      is what it was, and the loan is closed on the day of return. */
  lemma BorrowThenReturn(lib: Library, policy: LoanPolicy, userId: Id, itemId: Id, today: Time, later: Time)
    requires Valid(lib)
    requires BorrowItem(lib, policy, userId, itemId, today).result.Ok?
    ensures
      var borrowed := BorrowItem(lib, policy, userId, itemId, today);
      var returned := ReturnItem(borrowed.lib, borrowed.result.value, later);
      && returned.result.Ok?
      && returned.result.value.status == Returned
      && returned.result.value.returnDate == Some(later)
      && returned.lib.items == lib.items
  {
    var borrowed := BorrowItem(lib, policy, userId, itemId, today);
    var item := lib.items[itemId];
    assert borrowed.lib.items[itemId] == item.(availableCopies := item.availableCopies - 1);
    assert item.(availableCopies := item.availableCopies - 1).(availableCopies := item.availableCopies) == item;
  }

  /** An item added through the service is what `getMediaItem` then returns. */
  lemma AddThenGet(lib: Library, item: MediaItem)
    requires AddMediaItem(lib, Some(item)).result.Ok?
    ensures
      var added := AddMediaItem(lib, Some(item));
      GetMediaItem(added.lib, added.result.value).result == Ok(Some(item))
  {
  }
}

=== FILE: loan_store.dfy ===
/** The loan store: loans must refer to a stored user and item. */
module LoanStore {
  import opened Outcomes
  import opened Domain

  function FindById(lib: Library, id: Id): (r: Option<Loan>)
    ensures r.Some? <==> id in lib.loans
    ensures r.Some? ==> r.value == lib.loans[id]
  {
    if id in lib.loans then Some(lib.loans[id]) else None
  }

  /** The loan points at a stored user and a stored item (the foreign keys). */
  predicate References(lib: Library, loan: Loan) {
    loan.userId in lib.users && loan.itemId in lib.items
  }

  /** `save`: stores the loan under a fresh id. */
  function Save(lib: Library, loan: Loan): (r: Result<(Library, Id)>)
    ensures r.Ok? <==> References(lib, loan)
    ensures r.Err? ==> r.error.Kind() == DataAccess
    ensures r.Ok? ==>
      var (lib', id) := r.value;
      && Newer(lib, id)
      && lib'.loans == lib.loans[id := loan]
      && lib'.users == lib.users && lib'.items == lib.items && lib'.reservations == lib.reservations
    ensures Valid(lib) && r.Ok? ==> Valid(r.value.0)
  {
    if !References(lib, loan) then Err(DanglingReference)
    else
      var id := lib.nextId;
      Ok((lib.(loans := lib.loans[id := loan], nextId := id + 1), id))
  }

  /** `update`: replaces a stored loan. */
  function Update(lib: Library, id: Id, loan: Loan): (r: Result<Library>)
    ensures id !in lib.loans ==> r == Err(NoSuchRow)
    ensures r.Ok? <==> id in lib.loans && References(lib, loan)
    ensures r.Err? ==> r.error.Kind() == DataAccess
    ensures r.Ok? ==>
      && FindById(r.value, id) == Some(loan)
      && (forall k :: k != id ==> FindById(r.value, k) == FindById(lib, k))
      && r.value.users == lib.users && r.value.items == lib.items && r.value.reservations == lib.reservations
    ensures Valid(lib) && r.Ok? ==> Valid(r.value)
  {
    if id !in lib.loans then Err(NoSuchRow)
    else if !References(lib, loan) then Err(DanglingReference)
    else Ok(lib.(loans := lib.loans[id := loan]))
  }
}

=== FILE: media_store.dfy ===
/** The media-item store: constraints on save and update, lookups that answer
    "nothing" instead of failing, and deletion that takes dependants along. */
module MediaStore {
  import opened Outcomes
  import opened Domain
  import opened Text
  import Query

  /** A keyword that is absent or empty matches nothing. */
  predicate NoKeyword(k: Option<string>) {
    k.None? || k.value == []
  }

  /** The ids of the items satisfying `p`, oldest first. */
  function Matching(lib: Library, p: MediaItem -> bool): (r: seq<Id>)
    ensures Query.Ascending(r)
    ensures forall k :: k in r <==> k in lib.items && p(lib.items[k])
  {
    Query.Select(lib.items, p, 1, lib.nextId)
  }

  function FindById(lib: Library, id: Id): (r: Option<MediaItem>)
    ensures r.Some? <==> id in lib.items
    ensures r.Some? ==> r.value == lib.items[id]
    ensures id < 1 ==> r == None
  {
    if id in lib.items then Some(lib.items[id]) else None
  }

  /** `existsByIsbn`: false for a missing ISBN. */
  function ExistsByIsbn(lib: Library, isbn: Option<string>): (r: bool)
    ensures r <==> isbn.Some? && exists k :: k in lib.items && lib.items[k].isbn == isbn
  {
    var hits := Matching(lib, (it: MediaItem) => it.isbn == isbn);
    assert hits != [] ==> hits[0] in hits;
    isbn.Some? && hits != []
  }

  /** `findByIsbn`: the id of the item with that ISBN, nothing for a missing ISBN. */
  function FindByIsbn(lib: Library, isbn: Option<string>): (r: Option<Id>)
    ensures r.None? <==> !ExistsByIsbn(lib, isbn)
    ensures r.Some? ==> r.value in lib.items && lib.items[r.value].isbn == isbn
    ensures Valid(lib) && r.Some? ==> forall k :: k in lib.items && lib.items[k].isbn == isbn ==> k == r.value
  {
    if isbn.None? then None
    else
      var hits := Matching(lib, (it: MediaItem) => it.isbn == isbn);
      if hits == [] then None
      else
        assert hits[0] in hits;
        Some(hits[0])
  }

  /** `save`: a missing title or an ISBN already on file is a constraint violation;
      otherwise the item is stored under a fresh id. */
  function Save(lib: Library, item: MediaItem): (r: Result<(Library, Id)>)
    ensures item.title.None? ==> r == Err(MissingTitle)
    ensures item.title.Some? && item.isbn.Some? && ExistsByIsbn(lib, item.isbn) ==> r == Err(DuplicateIsbn)
    ensures r.Ok? <==> item.title.Some? && !ExistsByIsbn(lib, item.isbn)
    ensures r.Ok? ==>
      var (lib', id) := r.value;
      && Newer(lib, id)
      && lib'.items == lib.items[id := item]
      && lib'.users == lib.users && lib'.loans == lib.loans && lib'.reservations == lib.reservations
    ensures Valid(lib) && r.Ok? ==> Valid(r.value.0)
  {
    if item.title.None? then Err(MissingTitle)
    else if item.isbn.Some? && ExistsByIsbn(lib, item.isbn) then Err(DuplicateIsbn)
    else
      var id := lib.nextId;
      Ok((lib.(items := lib.items[id := item], nextId := id + 1), id))
  }

  /** Some item other than `id` already carries the ISBN `isbn`. */
  predicate IsbnHeldElsewhere(lib: Library, id: Id, isbn: Option<string>) {
    isbn.Some? && exists k :: k in lib.items && k != id && lib.items[k].isbn == isbn
  }

  /** `update`: the row must exist and the new values must satisfy the constraints. */
  function Update(lib: Library, id: Id, item: MediaItem): (r: Result<Library>)
    ensures id !in lib.items ==> r == Err(NoSuchRow)
    ensures r.Ok? <==> id in lib.items && item.title.Some? && !IsbnHeldElsewhere(lib, id, item.isbn)
    ensures r.Err? ==> r.error.Kind() == DataAccess
    ensures r.Ok? ==>
      && FindById(r.value, id) == Some(item)
      && (forall k :: k != id ==> FindById(r.value, k) == FindById(lib, k))
      && r.value.users == lib.users && r.value.loans == lib.loans && r.value.reservations == lib.reservations
    ensures Valid(lib) && r.Ok? ==> Valid(r.value)
  {
    if id !in lib.items then Err(NoSuchRow)
    else if item.title.None? then Err(MissingTitle)
    else if IsbnHeldElsewhere(lib, id, item.isbn) then Err(DuplicateIsbn)
    else Ok(lib.(items := lib.items[id := item]))
  }

  /** `updateAvailableCopies`: sets the count of a stored item, negative counts
      included; only a missing row fails. */
  function UpdateAvailableCopies(lib: Library, id: Id, copies: int): (r: Result<Library>)
    ensures r.Ok? <==> id in lib.items
    ensures r.Err? ==> r.error == NoSuchRow && r.error.Kind() == DataAccess
    ensures r.Ok? ==>
      && FindById(r.value, id) == Some(lib.items[id].(availableCopies := copies))
      && (forall k :: k != id ==> FindById(r.value, k) == FindById(lib, k))
      && r.value.users == lib.users && r.value.loans == lib.loans && r.value.reservations == lib.reservations
    ensures Valid(lib) && r.Ok? ==> Valid(r.value)
  {
    if id !in lib.items then Err(NoSuchRow)
    else Ok(lib.(items := lib.items[id := lib.items[id].(availableCopies := copies)]))
  }

  /** `deleteById`: true exactly when the item existed; its loans and reservations
      go with it. */
  function Delete(lib: Library, id: Id): (r: (Library, bool))
    ensures r.1 <==> id in lib.items
    ensures id !in r.0.items
    ensures forall k :: k != id ==> FindById(r.0, k) == FindById(lib, k)
    ensures forall k :: k in r.0.loans <==> k in lib.loans && lib.loans[k].itemId != id
    ensures forall k :: k in r.0.reservations <==> k in lib.reservations && lib.reservations[k].itemId != id
    ensures forall k :: k in r.0.loans ==> r.0.loans[k] == lib.loans[k]
    ensures forall k :: k in r.0.reservations ==> r.0.reservations[k] == lib.reservations[k]
    ensures r.0.users == lib.users
  {
    var lib' := lib.(
      items := lib.items - {id},
      loans := map k | k in lib.loans && lib.loans[k].itemId != id :: lib.loans[k],
      reservations := map k | k in lib.reservations && lib.reservations[k].itemId != id :: lib.reservations[k]);
    (lib', id in lib.items)
  }

  lemma DeletePreservesValid(lib: Library, id: Id)
    requires Valid(lib)
    ensures Valid(Delete(lib, id).0)
  {
  }

  /** `findByType`: the items of exactly that type. */
  function FindByType(lib: Library, mediaType: Option<string>): (r: seq<Id>)
    ensures NoKeyword(mediaType) ==> r == []
    ensures Query.Ascending(r)
    ensures !NoKeyword(mediaType) ==>
      forall k :: k in r <==> k in lib.items && lib.items[k].mediaType == mediaType.value
  {
    if NoKeyword(mediaType) then []
    else Matching(lib, (it: MediaItem) => it.mediaType == mediaType.value)
  }

  /** `findByTitleContaining`. */
  function FindByTitleContaining(lib: Library, title: Option<string>): (r: seq<Id>)
    ensures NoKeyword(title) ==> r == []
    ensures Query.Ascending(r)
    ensures !NoKeyword(title) ==>
      forall k :: k in r <==> k in lib.items && TitleContains(lib.items[k], title.value)
  {
    if NoKeyword(title) then []
    else Matching(lib, (it: MediaItem) => TitleContains(it, title.value))
  }

  /** `findByAuthorContaining`. */
  function FindByAuthorContaining(lib: Library, author: Option<string>): (r: seq<Id>)
    ensures NoKeyword(author) ==> r == []
    ensures Query.Ascending(r)
    ensures !NoKeyword(author) ==>
      forall k :: k in r <==> k in lib.items && Contains(lib.items[k].author, author.value)
  {
    if NoKeyword(author) then []
    else Matching(lib, (it: MediaItem) => Contains(it.author, author.value))
  }

  predicate TitleContains(item: MediaItem, keyword: string) {
    item.title.Some? && Contains(item.title.value, keyword)
  }

  /** The free-text match of `search`: the keyword occurs in the title or the author. */
  predicate Matches(item: MediaItem, keyword: string) {
    TitleContains(item, keyword) || Contains(item.author, keyword)
  }

  /** `search`: items whose title or author contains the keyword. */
  function Search(lib: Library, keyword: Option<string>): (r: seq<Id>)
    ensures NoKeyword(keyword) ==> r == []
    ensures Query.Ascending(r)
    ensures !NoKeyword(keyword) ==>
      forall k :: k in r <==> (k in lib.items && Matches(lib.items[k], keyword.value))
  {
    if NoKeyword(keyword) then []
    else Matching(lib, (it: MediaItem) => Matches(it, keyword.value))
  }

  /** A saved item is found again under its id and under its ISBN. */
  lemma SaveThenFind(lib: Library, item: MediaItem)
    requires Save(lib, item).Ok?
    ensures var (lib', id) := Save(lib, item).value;
      && FindById(lib', id) == Some(item)
      && (item.isbn.Some? ==> FindByIsbn(lib', item.isbn) == Some(id))
  {
    var (lib', id) := Save(lib, item).value;
    if item.isbn.Some? {
      var r := FindByIsbn(lib', item.isbn);
      assert id in lib'.items && lib'.items[id].isbn == item.isbn;
      assert r.Some?;
      assert r.value == id;
    }
  }

  /** Saving a second item under an ISBN already saved fails as a data-access error. */
  lemma DuplicateIsbnRejected(lib: Library, first: MediaItem, second: MediaItem)
    requires Save(lib, first).Ok?
    requires first.isbn.Some? && second.isbn == first.isbn && second.title.Some?
    ensures var r := Save(Save(lib, first).value.0, second);
      r == Err(DuplicateIsbn) && r.error.Kind() == DataAccess
  {
    var (lib', id) := Save(lib, first).value;
    assert lib'.items[id].isbn == second.isbn;
  }

  /** After a successful delete the id is gone: a second delete answers false. */
  lemma DeleteThenDeleteAgain(lib: Library, id: Id)
    ensures !Delete(Delete(lib, id).0, id).1
    ensures FindById(Delete(lib, id).0, id) == None
  {
  }
}

=== FILE: outcomes.dfy ===
/** Optional values, the library's error taxonomy and the result of a fallible operation. */
module Outcomes {

  /** A value that may be absent; stands for Java's `null` and `Optional.empty()`. */
  datatype Option<+T> = None | Some(value: T)

  /** The three exception families of the library: `BusinessException`,
      `DataAccessException` and `AuthenticationException`. */
  datatype ErrorKind = Business | DataAccess | Auth

  /** Every failure the modelled operations raise, each belonging to one family. */
  datatype Error =
    // business-rule violations raised by the library service
    | NullMediaItem
    | UserNotFound
    | ItemNotFound
    | NoCopiesAvailable
    | LoanNotFound
    // constraint violations and missing rows reported by the stores
    | MissingTitle
    | DuplicateIsbn
    | DuplicateUsername
    | DuplicateEmail
    | NoSuchRow
    | DanglingReference
    // authentication and registration failures
    | MissingCredentials
    | UnknownUsername
    | WrongPassword
    | NullUser
    | UsernameTaken
    | EmailTaken
  {
    /** The exception family an error is raised as. */
    function Kind(): ErrorKind {
      match this
      case NullMediaItem | UserNotFound | ItemNotFound | NoCopiesAvailable | LoanNotFound => Business
      case MissingTitle | DuplicateIsbn | DuplicateUsername | DuplicateEmail | NoSuchRow | DanglingReference => DataAccess
      case MissingCredentials | UnknownUsername | WrongPassword | NullUser | UsernameTaken | EmailTaken => Auth
    }
  }

  /** Either the operation's value or the error it raised. */
  datatype Result<+T> = Ok(value: T) | Err(error: Error)
}

=== FILE: query.dfy ===
/** Reading rows out of a store in the order their ids were handed out. */
module Query {

  /** Strictly increasing ids. */
  predicate Ascending(s: seq<int>) {
    forall i, j :: 0 <= i < j < |s| ==> s[i] < s[j]
  }

  /** The ids in [lo, hi) whose row in `m` satisfies `p`, in increasing order. */
  function Select<V>(m: map<int, V>, p: V -> bool, lo: int, hi: int): (r: seq<int>)
    ensures Ascending(r)
    ensures forall x :: x in r <==> lo <= x < hi && x in m && p(m[x])
    decreases hi - lo
  {
    if lo >= hi then []
    else
      var rest := Select(m, p, lo + 1, hi);
      if lo in m && p(m[lo]) then
        assert forall j :: 0 <= j < |rest| ==> rest[j] in rest;
        [lo] + rest
      else rest
  }

  /** Nothing is selected when no row satisfies `p`. */
  lemma {:induction false} SelectNone<V>(m: map<int, V>, p: V -> bool, lo: int, hi: int)
    requires forall x :: lo <= x < hi && x in m ==> !p(m[x])
    ensures Select(m, p, lo, hi) == []
    decreases hi - lo
  {
    if lo < hi {
      SelectNone(m, p, lo + 1, hi);
    }
  }

  /** The elements of a sequence without repetitions, as a set. */
  function Elements(s: seq<int>): set<int> {
    set x | x in s
  }

  /** A strictly increasing sequence has exactly as many elements as its set. */
  lemma {:induction false} AscendingCardinality(s: seq<int>)
    requires Ascending(s)
    ensures |Elements(s)| == |s|
  {
    if s != [] {
      AscendingCardinality(s[1..]);
      assert Elements(s) == {s[0]} + Elements(s[1..]);
      assert s[0] !in Elements(s[1..]);
    }
  }
}

=== FILE: reservation_store.dfy ===
/** The reservation store and its per-item FIFO waiting queue. */
module ReservationStore {
  import opened Outcomes
  import opened Domain
  import Query
  import UserStore
  import MediaStore

  function FindById(lib: Library, id: Id): (r: Option<Reservation>)
    ensures r.Some? <==> id in lib.reservations
    ensures r.Some? ==> r.value == lib.reservations[id]
  {
    if id in lib.reservations then Some(lib.reservations[id]) else None
  }

  /** The ids of the reservations satisfying `p`, oldest first. */
  function Matching(lib: Library, p: Reservation -> bool): (r: seq<Id>)
    ensures Query.Ascending(r)
    ensures forall k :: k in r <==> k in lib.reservations && p(lib.reservations[k])
  {
    Query.Select(lib.reservations, p, 1, lib.nextId)
  }

  /** The reservation points at a stored user and a stored item (the foreign keys). */
  predicate References(lib: Library, r: Reservation) {
    r.userId in lib.users && r.itemId in lib.items
  }

  /** `save`: stores the reservation under a fresh id, newer than every id in use. */
  function Save(lib: Library, res: Reservation): (r: Result<(Library, Id)>)
    ensures r.Ok? <==> References(lib, res)
    ensures r.Err? ==> r.error.Kind() == DataAccess
    ensures r.Ok? ==>
      var (lib', id) := r.value;
      && Newer(lib, id)
      && FindById(lib', id) == Some(res)
      && (forall k :: k != id ==> FindById(lib', k) == FindById(lib, k))
      && lib'.users == lib.users && lib'.items == lib.items && lib'.loans == lib.loans
    ensures Valid(lib) && r.Ok? ==> Valid(r.value.0)
  {
    if !References(lib, res) then Err(DanglingReference)
    else
      var id := lib.nextId;
      Ok((lib.(reservations := lib.reservations[id := res], nextId := id + 1), id))
  }

  /** `update`: replaces a stored reservation, e.g. to change its status. */
  function Update(lib: Library, id: Id, res: Reservation): (r: Result<Library>)
    ensures id !in lib.reservations ==> r == Err(NoSuchRow)
    ensures r.Ok? <==> id in lib.reservations && References(lib, res)
    ensures r.Err? ==> r.error.Kind() == DataAccess
    ensures r.Ok? ==>
      && FindById(r.value, id) == Some(res)
      && (forall k :: k != id ==> FindById(r.value, k) == FindById(lib, k))
      && r.value.users == lib.users && r.value.items == lib.items && r.value.loans == lib.loans
    ensures Valid(lib) && r.Ok? ==> Valid(r.value)
  {
    if id !in lib.reservations then Err(NoSuchRow)
    else if !References(lib, res) then Err(DanglingReference)
    else Ok(lib.(reservations := lib.reservations[id := res]))
  }

  /** `deleteById`: true exactly when the reservation existed. */
  function Delete(lib: Library, id: Id): (r: (Library, bool))
    ensures r.1 <==> id in lib.reservations
    ensures FindById(r.0, id) == None
    ensures forall k :: k != id ==> FindById(r.0, k) == FindById(lib, k)
    ensures r.0.users == lib.users && r.0.items == lib.items && r.0.loans == lib.loans
    ensures Valid(lib) ==> Valid(r.0)
  {
    (lib.(reservations := lib.reservations - {id}), id in lib.reservations)
  }

  /** `findByUserId`: all of a user's reservations, whatever their status. */
  function FindByUserId(lib: Library, userId: Id): (r: seq<Id>)
    ensures Query.Ascending(r)
    ensures forall k :: k in r <==> k in lib.reservations && lib.reservations[k].userId == userId
  {
    Matching(lib, (res: Reservation) => res.userId == userId)
  }

  /** `findActiveByUserId`: the user's reservations still waiting. */
  function FindActiveByUserId(lib: Library, userId: Id): (r: seq<Id>)
    ensures Query.Ascending(r)
    ensures forall k :: k in r <==>
      k in lib.reservations && lib.reservations[k].userId == userId && lib.reservations[k].status == Active
  {
    Matching(lib, (res: Reservation) => res.userId == userId && res.status == Active)
  }

  /** `findExpiredReservations(now)`: the reservations still ACTIVE whose expiry lies
      before `now`. It only reads: the result keeps their ACTIVE status. */
  function FindExpired(lib: Library, now: Time): (r: seq<Id>)
    ensures Query.Ascending(r)
    ensures forall k :: k in r <==>
      k in lib.reservations && lib.reservations[k].status == Active && lib.reservations[k].expiryDate < now
  {
    Matching(lib, (res: Reservation) => res.status == Active && res.expiryDate < now)
  }

  /** The reservations waiting for an item, in id order. */
  function Waiting(lib: Library, itemId: Id): (r: seq<Id>)
    ensures Query.Ascending(r)
    ensures forall k :: k in r <==> Waits(lib, k, itemId)
  {
    Matching(lib, (res: Reservation) => res.itemId == itemId && res.status == Active)
  }

  predicate Waits(lib: Library, k: Id, itemId: Id) {
    k in lib.reservations && lib.reservations[k].itemId == itemId && lib.reservations[k].status == Active
  }

  /** `countActiveByItemId`: how many reservations wait for the item. */
  function CountActiveByItemId(lib: Library, itemId: Id): (n: nat)
    ensures n == |set k | k in lib.reservations && Waits(lib, k, itemId)|
  {
    var w := Waiting(lib, itemId);
    Query.AscendingCardinality(w);
    assert Query.Elements(w) == set k | k in lib.reservations && Waits(lib, k, itemId);
    |w|
  }

  // ---------------------------------------------------------------------------
  // The FIFO queue

  /** Queue precedence: the earlier reservation date first; on equal dates the
      older id (the store's sequence number) first. */
  predicate Precedes(lib: Library, a: Id, b: Id) {
    && a in lib.reservations && b in lib.reservations
    && (|| lib.reservations[a].reservationDate < lib.reservations[b].reservationDate
        || (lib.reservations[a].reservationDate == lib.reservations[b].reservationDate && a < b))
  }

  /** Every element of `q` is stored and precedes every later element. */
  predicate InQueueOrder(lib: Library, q: seq<Id>) {
    && (forall i :: 0 <= i < |q| ==> q[i] in lib.reservations)
    && (forall i, j :: 0 <= i < j < |q| ==> Precedes(lib, q[i], q[j]))
  }

  /** Puts `x` into the ordered queue `q` at its place. */
  function Enqueue(lib: Library, x: Id, q: seq<Id>): (r: seq<Id>)
    requires x in lib.reservations && x !in q
    requires InQueueOrder(lib, q)
    ensures InQueueOrder(lib, r)
    ensures |r| == |q| + 1
    ensures forall y :: y in r <==> y == x || y in q
  {
    if q == [] then [x]
    else if Precedes(lib, x, q[0]) then [x] + q
    else
      var rest := Enqueue(lib, x, q[1..]);
      assert Precedes(lib, q[0], x);
      assert forall j :: 0 <= j < |rest| ==> rest[j] in rest;
      assert forall y :: y in q[1..] ==> Precedes(lib, q[0], y) by {
        forall y | y in q[1..] ensures Precedes(lib, q[0], y) {
          var j :| 0 <= j < |q[1..]| && q[1..][j] == y;
          assert q[j + 1] == y;
        }
      }
      [q[0]] + rest
  }

  /** Arranges distinct stored reservations into queue order. */
  function Arrange(lib: Library, ids: seq<Id>): (q: seq<Id>)
    requires forall i :: 0 <= i < |ids| ==> ids[i] in lib.reservations
    requires Query.Ascending(ids)
    ensures InQueueOrder(lib, q)
    ensures |q| == |ids|
    ensures forall y :: y in q <==> y in ids
  {
    if ids == [] then []
    else
      assert ids[0] !in ids[1..];
      Enqueue(lib, ids[0], Arrange(lib, ids[1..]))
  }

  /** `findActiveByItemId`: the item's waiting reservations, first come first served. */
  function FindActiveByItemId(lib: Library, itemId: Id): (q: seq<Id>)
    ensures InQueueOrder(lib, q)
    ensures forall k :: k in q <==> Waits(lib, k, itemId)
  {
    var w := Waiting(lib, itemId);
    Arrange(lib, w)
  }

  /** The queue holds each waiting reservation once: its length is the active count. */
  lemma QueueLengthIsCount(lib: Library, itemId: Id)
    ensures |FindActiveByItemId(lib, itemId)| == CountActiveByItemId(lib, itemId)
  {
  }

  /** The queue order is strict and total, so the queue holding a given set of
      reservations is unique. */
  lemma {:induction false} QueueUnique(lib: Library, a: seq<Id>, b: seq<Id>)
    requires InQueueOrder(lib, a) && InQueueOrder(lib, b)
    requires forall x :: x in a <==> x in b
    ensures a == b
  {
    if a != [] { assert a[0] in a; }
    if b != [] { assert b[0] in b; }
    if a != [] && b != [] {
      assert a[0] == b[0] by {
        assert forall i :: 0 <= i < |a| ==> a[i] in a;
        assert forall i :: 0 <= i < |b| ==> b[i] in b;
      }
      forall x ensures x in a[1..] <==> x in b[1..] {
        if x in a[1..] { assert x in b; assert x != b[0]; }
        if x in b[1..] { assert x in a; assert x != a[0]; }
      }
      QueueUnique(lib, a[1..], b[1..]);
      assert a == [a[0]] + a[1..];
      assert b == [b[0]] + b[1..];
    }
  }

  /** Appending a reservation that every queued one precedes keeps queue order. */
  lemma AppendKeepsOrder(lib: Library, q: seq<Id>, x: Id)
    requires InQueueOrder(lib, q) && x in lib.reservations
    requires forall k :: k in q ==> Precedes(lib, k, x)
    ensures InQueueOrder(lib, q + [x])
  {
    assert forall i :: 0 <= i < |q| ==> q[i] in q;
  }

  /** Queue order depends only on the queued rows: any state holding the same rows
      for them orders them the same way. */
  lemma OrderFollowsRows(lib: Library, lib': Library, q: seq<Id>)
    requires InQueueOrder(lib, q)
    requires forall k :: k in q ==> k in lib'.reservations && lib'.reservations[k] == lib.reservations[k]
    ensures InQueueOrder(lib', q)
  {
    forall i, j | 0 <= i < j < |q| ensures Precedes(lib', q[i], q[j]) {
      assert q[i] in q && q[j] in q;
      assert Precedes(lib, q[i], q[j]);
    }
  }

  /** A new ACTIVE reservation for an item, dated no earlier than those already
      waiting, joins the item's queue at the tail; the rest of the queue keeps its
      order. */
  lemma ReserveJoinsTail(lib: Library, res: Reservation)
    requires res.status == Active
    requires forall k :: Waits(lib, k, res.itemId) ==> lib.reservations[k].reservationDate <= res.reservationDate
    requires Save(lib, res).Ok?
    ensures var (lib', id) := Save(lib, res).value;
      FindActiveByItemId(lib', res.itemId) == FindActiveByItemId(lib, res.itemId) + [id]
  {
    var (lib', id) := Save(lib, res).value;
    var old_q := FindActiveByItemId(lib, res.itemId);
    assert lib'.reservations == lib.reservations[id := res];
    OrderFollowsRows(lib, lib', old_q);
    assert forall k :: k in old_q ==> Precedes(lib', k, id) by {
      forall k | k in old_q ensures Precedes(lib', k, id) {
        assert Waits(lib, k, res.itemId);
      }
    }
    AppendKeepsOrder(lib', old_q, id);
    var q := old_q + [id];
    var new_q := FindActiveByItemId(lib', res.itemId);
    forall x ensures x in new_q <==> x in q {
      assert Waits(lib', x, res.itemId) <==> Waits(lib, x, res.itemId) || x == id;
    }
    QueueUnique(lib', new_q, q);
  }

  /** Three users reserve the same item one after another: the queue serves them in
      the order they reserved. */
  lemma ThreeReservationsServedInOrder(lib: Library, r1: Reservation, r2: Reservation, r3: Reservation,
                                       l1: Library, l2: Library, l3: Library, i1: Id, i2: Id, i3: Id)
    requires FindActiveByItemId(lib, r1.itemId) == []
    requires r1.status == Active && r2.status == Active && r3.status == Active
    requires r2.itemId == r1.itemId && r3.itemId == r1.itemId
    requires r1.reservationDate <= r2.reservationDate <= r3.reservationDate
    requires Save(lib, r1) == Ok((l1, i1)) && Save(l1, r2) == Ok((l2, i2)) && Save(l2, r3) == Ok((l3, i3))
    ensures FindActiveByItemId(l3, r1.itemId) == [i1, i2, i3]
  {
    TwoReservationsServedInOrder(lib, r1, r2, l1, l2, i1, i2);
    JoinsQueue(l2, [i1, i2], r3, l3, i3);
  }

  /** The first two steps of `ThreeReservationsServedInOrder`. */
  lemma TwoReservationsServedInOrder(lib: Library, r1: Reservation, r2: Reservation,
                                     l1: Library, l2: Library, i1: Id, i2: Id)
    requires FindActiveByItemId(lib, r1.itemId) == []
    requires r1.status == Active && r2.status == Active && r2.itemId == r1.itemId
    requires r1.reservationDate <= r2.reservationDate
    requires Save(lib, r1) == Ok((l1, i1)) && Save(l1, r2) == Ok((l2, i2))
    ensures FindActiveByItemId(l2, r1.itemId) == [i1, i2]
    ensures l2.reservations[i1] == r1 && l2.reservations[i2] == r2
  {
    JoinsQueue(lib, [], r1, l1, i1);
    JoinsQueue(l1, [i1], r2, l2, i2);
  }

  /** `ReserveJoinsTail` for a queue known by its contents. */
  lemma JoinsQueue(lib: Library, q: seq<Id>, res: Reservation, lib': Library, id: Id)
    requires FindActiveByItemId(lib, res.itemId) == q
    requires res.status == Active
    requires forall k :: k in q ==> lib.reservations[k].reservationDate <= res.reservationDate
    requires Save(lib, res) == Ok((lib', id))
    ensures FindActiveByItemId(lib', res.itemId) == q + [id]
    ensures lib'.reservations[id] == res
  {
    WaitingAreQueued(lib, res.itemId);
    ReserveJoinsTail(lib, res);
  }

  /** Every reservation waiting for the item is in its queue. */
  lemma WaitingAreQueued(lib: Library, itemId: Id)
    ensures forall k :: Waits(lib, k, itemId) ==> k in FindActiveByItemId(lib, itemId)
  {
  }

  /** Cancelling a waiting reservation takes it out of the item's queue and the
      user's active list, and lowers the item's count by one. */
  lemma CancelLeavesQueue(lib: Library, id: Id)
    requires id in lib.reservations && lib.reservations[id].status == Active
    requires References(lib, lib.reservations[id])
    ensures
      var r := lib.reservations[id];
      var lib' := Update(lib, id, r.(status := Cancelled)).value;
      && id !in FindActiveByItemId(lib', r.itemId)
      && id !in FindActiveByUserId(lib', r.userId)
      && id in FindByUserId(lib', r.userId)
      && CountActiveByItemId(lib', r.itemId) == CountActiveByItemId(lib, r.itemId) - 1
  {
    var r := lib.reservations[id];
    var lib' := Update(lib, id, r.(status := Cancelled)).value;
    var before := set k | k in lib.reservations && Waits(lib, k, r.itemId);
    var after := set k | k in lib'.reservations && Waits(lib', k, r.itemId);
    assert after == before - {id} by {
      forall k ensures k in after <==> k in before - {id} {
        assert FindById(lib', k) == if k == id then Some(r.(status := Cancelled)) else FindById(lib, k);
      }
    }
    assert id in before;
  }

  /** The elements of `q` satisfying `p`, in their order in `q`. */
  function Keep(q: seq<Id>, p: Id -> bool): (r: seq<Id>)
    ensures forall x :: x in r <==> x in q && p(x)
  {
    if q == [] then [] else (if p(q[0]) then [q[0]] else []) + Keep(q[1..], p)
  }

  /** Dropping elements from a queue leaves the others in queue order. */
  lemma {:induction false} KeepKeepsOrder(lib: Library, q: seq<Id>, p: Id -> bool)
    requires InQueueOrder(lib, q)
    ensures InQueueOrder(lib, Keep(q, p))
  {
    if q != [] {
      assert InQueueOrder(lib, q[1..]);
      KeepKeepsOrder(lib, q[1..], p);
      var rest := Keep(q[1..], p);
      assert forall j :: 0 <= j < |rest| ==> rest[j] in rest;
      assert forall y :: y in q[1..] ==> Precedes(lib, q[0], y);
    }
  }

  /** Deleting a user deletes the user's reservations: none is found any more, and
      every item's queue loses exactly them, the others keeping their order. */
  lemma DeletingUserDropsReservations(lib: Library, userId: Id, itemId: Id)
    ensures
      var lib' := UserStore.Delete(lib, userId).0;
      && FindByUserId(lib', userId) == []
      && (forall k :: k in lib.reservations && lib.reservations[k].userId == userId ==> FindById(lib', k) == None)
      && FindActiveByItemId(lib', itemId)
         == Keep(FindActiveByItemId(lib, itemId), (k: Id) => k in lib.reservations && lib.reservations[k].userId != userId)
  {
    var lib' := UserStore.Delete(lib, userId).0;
    var p := (k: Id) => k in lib.reservations && lib.reservations[k].userId != userId;
    var q := FindActiveByItemId(lib, itemId);
    var kept := Keep(q, p);
    KeepKeepsOrder(lib, q, p);
    OrderFollowsRows(lib, lib', kept);
    var q' := FindActiveByItemId(lib', itemId);
    forall x ensures x in q' <==> x in kept {
      assert Waits(lib', x, itemId) <==> Waits(lib, x, itemId) && p(x);
    }
    QueueUnique(lib', q', kept);
    Query.SelectNone(lib'.reservations, (res: Reservation) => res.userId == userId, 1, lib'.nextId);
  }

  /** Deleting an item deletes its reservations: none is found any more, its queue
      is empty, and every other item's queue is untouched. */
  lemma DeletingItemDropsReservations(lib: Library, id: Id, otherItem: Id)
    requires otherItem != id
    ensures
      var lib' := MediaStore.Delete(lib, id).0;
      && FindActiveByItemId(lib', id) == []
      && (forall k :: k in lib.reservations && lib.reservations[k].itemId == id ==> FindById(lib', k) == None)
      && FindActiveByItemId(lib', otherItem) == FindActiveByItemId(lib, otherItem)
  {
    var lib' := MediaStore.Delete(lib, id).0;
    var q := FindActiveByItemId(lib, otherItem);
    OrderFollowsRows(lib, lib', q);
    var q' := FindActiveByItemId(lib', otherItem);
    forall x ensures x in q' <==> x in q {
      assert Waits(lib', x, otherItem) <==> Waits(lib, x, otherItem);
    }
    QueueUnique(lib', q', q);
    Query.SelectNone(lib'.reservations, (res: Reservation) => res.itemId == id && res.status == Active, 1, lib'.nextId);
  }
}

=== FILE: text.dfy ===
/** String helpers: Java's `String.trim` and substring matching. */
module Text {

  /** `String.trim` strips every character whose code is at most U+0020. */
  predicate Trimmable(c: char) {
    c <= ' '
  }

  predicate AllTrimmable(s: string) {
    forall i :: 0 <= i < |s| ==> Trimmable(s[i])
  }

  /** Drops the leading trimmable characters. */
  function TrimStart(s: string): (r: string)
    ensures |r| <= |s| && r == s[|s| - |r|..]
    ensures r == [] || !Trimmable(r[0])
    ensures r == [] ==> AllTrimmable(s)
  {
    if |s| > 0 && Trimmable(s[0]) then TrimStart(s[1..]) else s
  }

  /** Drops the trailing trimmable characters. */
  function TrimEnd(s: string): (r: string)
    ensures |r| <= |s| && r == s[..|r|]
    ensures r == [] || !Trimmable(r[|r| - 1])
    ensures r == [] ==> AllTrimmable(s)
  {
    if |s| > 0 && Trimmable(s[|s| - 1]) then TrimEnd(s[..|s| - 1]) else s
  }

  /** Java's `String.trim`: the input with its leading and trailing padding removed. */
  function Trim(s: string): (r: string)
    ensures exists i, j :: 0 <= i <= j <= |s| && r == s[i..j] && AllTrimmable(s[..i]) && AllTrimmable(s[j..])
    ensures r == [] || (!Trimmable(r[0]) && !Trimmable(r[|r| - 1]))
    ensures r == [] <==> AllTrimmable(s)
  {
    var t := TrimStart(s);
    assert AllTrimmable(s) ==> t == [];
    assert t == [] && !AllTrimmable(s) ==> false by {
      if t == [] { assert s[..|s|] == s; }
    }
    var r := TrimEnd(t);
    TrimStartDropsPadding(s);
    TrimEndDropsPadding(t);
    var i := |s| - |t|;
    assert r == s[i..i + |r|] && s[i + |r|..] == t[|r|..];
    r
  }

  /** A string made blank by trimming: `s.trim().isEmpty()`. */
  predicate Blank(s: string) {
    Trim(s) == []
  }

  /** Substring test, as SQL `LIKE '%k%'` without case folding. */
  predicate Contains(s: string, k: string) {
    k <= s || (|s| > 0 && Contains(s[1..], k))
  }

  /** What `TrimStart` drops is padding. */
  lemma {:induction false} TrimStartDropsPadding(s: string)
    ensures AllTrimmable(s[..|s| - |TrimStart(s)|])
  {
    if |s| > 0 && Trimmable(s[0]) {
      TrimStartDropsPadding(s[1..]);
      var n := |s[1..]| - |TrimStart(s[1..])|;
      assert s[..n + 1] == [s[0]] + s[1..][..n];
    }
  }

  /** What `TrimEnd` drops is padding. */
  lemma {:induction false} TrimEndDropsPadding(s: string)
    ensures AllTrimmable(s[|TrimEnd(s)|..])
  {
    if |s| > 0 && Trimmable(s[|s| - 1]) {
      var p := s[..|s| - 1];
      TrimEndDropsPadding(p);
      assert s[|TrimEnd(p)|..] == p[|TrimEnd(p)|..] + [s[|s| - 1]];
    }
  }

  /** Leading trimmable characters do not change `TrimStart`. */
  lemma {:induction false} TrimStartSkipsPadding(pad: string, s: string)
    requires AllTrimmable(pad)
    ensures TrimStart(pad + s) == TrimStart(s)
  {
    if pad != [] {
      assert (pad + s)[1..] == pad[1..] + s;
      TrimStartSkipsPadding(pad[1..], s);
    } else {
      assert pad + s == s;
    }
  }

  /** Trailing trimmable characters do not change `TrimEnd`. */
  lemma {:induction false} TrimEndSkipsPadding(s: string, pad: string)
    requires AllTrimmable(pad)
    ensures TrimEnd(s + pad) == TrimEnd(s)
  {
    if pad != [] {
      var p := pad[..|pad| - 1];
      assert (s + pad)[..|s + pad| - 1] == s + p;
      TrimEndSkipsPadding(s, p);
    } else {
      assert s + pad == s;
    }
  }

  /** Once a non-trimmable character is met, `TrimStart` keeps everything after it. */
  lemma {:induction false} TrimStartAppend(s: string, t: string)
    requires !AllTrimmable(s)
    ensures TrimStart(s + t) == TrimStart(s) + t
  {
    assert s != [];
    assert (s + t)[0] == s[0];
    if Trimmable(s[0]) {
      assert (s + t)[1..] == s[1..] + t;
      assert !AllTrimmable(s[1..]) by {
        var i :| 0 <= i < |s| && !Trimmable(s[i]);
        assert s[1..][i - 1] == s[i];
      }
      TrimStartAppend(s[1..], t);
    }
  }

  /** Whitespace (or control characters) around a string are ignored by `Trim`:
      `"  testuser  ".trim()` is `"testuser".trim()`. */
  lemma TrimIgnoresPadding(pre: string, s: string, post: string)
    requires AllTrimmable(pre) && AllTrimmable(post)
    ensures Trim(pre + s + post) == Trim(s)
  {
    assert pre + s + post == pre + (s + post);
    TrimStartSkipsPadding(pre, s + post);
    if AllTrimmable(s) {
      assert AllTrimmable(s + post);
      assert TrimStart(s + post) == [];
    } else {
      TrimStartAppend(s, post);
      TrimEndSkipsPadding(TrimStart(s), post);
    }
  }

  /** `Trim` leaves a string without surrounding padding as it is. */
  lemma TrimKeepsClean(s: string)
    requires s == [] || (!Trimmable(s[0]) && !Trimmable(s[|s| - 1]))
    ensures Trim(s) == s
  {
  }

  /** Trimming twice is trimming once. */
  lemma TrimIdempotent(s: string)
    ensures Trim(Trim(s)) == Trim(s)
  {
    TrimKeepsClean(Trim(s));
  }
}

=== FILE: user_store.dfy ===
/** The user store: unique usernames and emails, lookups by id and by username,
    and deletion that takes the user's loans and reservations along. */
module UserStore {
  import opened Outcomes
  import opened Domain
  import Query

  function FindById(lib: Library, id: Id): (r: Option<User>)
    ensures r.Some? <==> id in lib.users
    ensures r.Some? ==> r.value == lib.users[id]
  {
    if id in lib.users then Some(lib.users[id]) else None
  }

  /** The ids of the users satisfying `p`, oldest first. */
  function Matching(lib: Library, p: User -> bool): (r: seq<Id>)
    ensures Query.Ascending(r)
    ensures forall k :: k in r <==> k in lib.users && p(lib.users[k])
  {
    Query.Select(lib.users, p, 1, lib.nextId)
  }

  /** `findByUsername`: the id of the user with exactly that username. */
  function FindByUsername(lib: Library, username: string): (r: Option<Id>)
    ensures r.None? <==> forall k :: k in lib.users ==> lib.users[k].username != username
    ensures r.Some? ==> r.value in lib.users && lib.users[r.value].username == username
    ensures Valid(lib) && r.Some? ==>
      forall k :: k in lib.users && lib.users[k].username == username ==> k == r.value
  {
    var hits := Matching(lib, (u: User) => u.username == username);
    if hits == [] then None
    else
      assert hits[0] in hits;
      Some(hits[0])
  }

  function ExistsByUsername(lib: Library, username: string): (r: bool)
    ensures r <==> exists k :: k in lib.users && lib.users[k].username == username
  {
    FindByUsername(lib, username).Some?
  }

  function ExistsByEmail(lib: Library, email: string): (r: bool)
    ensures r <==> exists k :: k in lib.users && lib.users[k].email == email
  {
    var hits := Matching(lib, (u: User) => u.email == email);
    assert hits != [] ==> hits[0] in hits;
    hits != []
  }

  /** `save`: a taken username or email violates a unique constraint; otherwise the
      user is stored under a fresh id. */
  function Save(lib: Library, user: User): (r: Result<(Library, Id)>)
    ensures r.Ok? <==> !ExistsByUsername(lib, user.username) && !ExistsByEmail(lib, user.email)
    ensures r.Err? ==> r.error.Kind() == DataAccess
    ensures r.Ok? ==>
      var (lib', id) := r.value;
      && Newer(lib, id)
      && lib'.users == lib.users[id := user]
      && lib'.items == lib.items && lib'.loans == lib.loans && lib'.reservations == lib.reservations
    ensures Valid(lib) && r.Ok? ==> Valid(r.value.0)
  {
    if ExistsByUsername(lib, user.username) then Err(DuplicateUsername)
    else if ExistsByEmail(lib, user.email) then Err(DuplicateEmail)
    else
      var id := lib.nextId;
      Ok((lib.(users := lib.users[id := user], nextId := id + 1), id))
  }

  /** `deleteById`: true exactly when the user existed; the user's loans and
      reservations go with it. */
  function Delete(lib: Library, id: Id): (r: (Library, bool))
    ensures r.1 <==> id in lib.users
    ensures id !in r.0.users
    ensures forall k :: k != id ==> FindById(r.0, k) == FindById(lib, k)
    ensures forall k :: k in r.0.loans <==> k in lib.loans && lib.loans[k].userId != id
    ensures forall k :: k in r.0.reservations <==> k in lib.reservations && lib.reservations[k].userId != id
    ensures forall k :: k in r.0.loans ==> r.0.loans[k] == lib.loans[k]
    ensures forall k :: k in r.0.reservations ==> r.0.reservations[k] == lib.reservations[k]
    ensures r.0.items == lib.items
  {
    var lib' := lib.(
      users := lib.users - {id},
      loans := map k | k in lib.loans && lib.loans[k].userId != id :: lib.loans[k],
      reservations := map k | k in lib.reservations && lib.reservations[k].userId != id :: lib.reservations[k]);
    (lib', id in lib.users)
  }

  /** A saved user is found again under the returned id and under its username. */
  lemma SaveThenFind(lib: Library, user: User)
    requires Save(lib, user).Ok?
    ensures var (lib', id) := Save(lib, user).value;
      && FindById(lib', id) == Some(user)
      && FindByUsername(lib', user.username) == Some(id)
  {
    var (lib', id) := Save(lib, user).value;
    var r := FindByUsername(lib', user.username);
    assert lib'.users[id].username == user.username;
    assert r.Some?;
    assert r.value == id;
  }

  /** Deleting a user keeps the constraints, dangling references included. */
  lemma DeletePreservesValid(lib: Library, id: Id)
    requires Valid(lib)
    ensures Valid(Delete(lib, id).0)
  {
  }
}
